=== FILE: README.md ===
# Git change-set parser and poll/checkout logic, in Dafny

A model of two parts of the Hudson Git plugin:

- **`GitChangeSet`**, which turns the lines of one raw-format commit record
  (`commit `/`committer ` header lines as in `--pretty=raw`, four-space
  indented message lines, `X<TAB>path` status lines as in `--name-status`)
  into a change entry. An entry has an id, a committer name, a message
  and a set of affected paths.
- **`GitSCM`**'s polling and checkout decisions: clone-and-fetch, choosing
  between a plain checkout and a checkout-then-merge, optional clean, and
  writing the change log.

Files:

- `java_string.dfy` (`module JavaString`): the Java `String` operations the
  parser relies on, with their Java behaviour written out.
  - `startsWith` and `indexOf` (first occurrence, or -1).
  - `substring`, which throws on bad bounds.
  - `split(" ")`, which splits at every space, drops trailing empty strings,
    and returns the whole string when there is no space.
  - Array indexing, which throws past the end.
  - Java `null` is `Option.None`.
- `seqs.dfy` (`module Seqs`): two generic facts about sequence concatenation.
- `change_set.dfy` (`module ChangeSet`): the parser.
  - `Classify` is the first-match prefix dispatch of `parseCommit`.
  - `Step` is one iteration of its loop; `Fold` is the loop.
  - `Parse` is the constructor.
  - An exception thrown by `parseCommit` is a `Thrown` result. `NoCommitId`
    is the failing `split(" ")[1]`; `NoCommitterName` is the failing
    `substring(10, indexOf(" <"))`.
  - The loop is checked against reference definitions that do not mention
    the loop: `MessageOf`, `PathsOf`, `IsLast`, `NoneOfKind` and `WellFormed`.
  - A renderer (`Render`) builds a record from an id, a name, message lines
    and changes. Parsing a rendered record gives back its id, committer
    name, message lines joined with newlines, and the set of its changed
    paths. It does not give back the e-mail and timestamp part of the
    committer line, the status letters, the order or multiplicity of the
    changes, or how the message was split into lines.
  - The getters `getId`, `getMsg` and `getAffectedPaths` are the fields of
    `Entry`.
- `git_scm.dfy` (`module GitScm`): `pollChanges` and `checkout` as pure
  functions. Each returns the boolean result, the trace of git commands
  issued (`GitOp`) and the project afterwards.
  - The git wrapper's queries are answers fixed in a `Repo`:
    - `hasGitRepo`;
    - `hasGitModules`, asked once after a clone and once after a checkout;
    - `revParse`, a map from branch names to hashes, where a missing key
      means `null`;
    - whether the merge succeeds.
  - Its commands are trace events: `Clone`, `SubmoduleInit`, `Fetch`,
    `Checkout`, `SubmoduleUpdate`, `Merge`, `Clean`, `RevParse` and `Log`.
  - Parameter substitution (`ParametersAction.substitute`) is an
    uninterpreted function carried by the build.

In three places the code does something a reader might not expect; the model
follows the code:

- **Message text.** The message is every body line, de-indented and followed
  by `"\n"`. It is not trimmed to a single trailing newline.
- **Branch used by polling.** `pollChanges` resolves the branch as configured
  (`getBranch()`), not the parameter-expanded one that `checkout` uses.
- **Malformed lines.** The parser is not total. `parseCommit` throws on two
  kinds of line, modelled as `Thrown`:
  - a `commit ` line with nothing but spaces after the prefix;
  - a `committer ` line whose first `" <"` is missing or lies before index 10.
    This includes a name that starts with `<`: `" <"` then occurs at index 9.

## Model

| member | source | states |
|---|---|---|
| `ChangeSet.Parse` | src/main/java/hudson/plugins/git/GitChangeSet.java:22-26 | An empty line list gives the unparsed entry: id, author and message `null` and no paths. A non-empty list that parses always has a non-`null` message. |
| `ChangeSet.Classify` | src/main/java/hudson/plugins/git/GitChangeSet.java:32-49 | The first-match dispatch gives each kind exactly when the line has that kind's prefix, whatever the order of the tests. So the kinds exclude each other and a line updates at most one field. |
| `ChangeSet.Step` | src/main/java/hudson/plugins/git/GitChangeSet.java:31-51 | One iteration throws exactly on a malformed line, with that line's exception. Empty, `tree `, `parent `, `author ` and unmatched lines change nothing. Each field changes only on its own kind of line. A `commit ` line sets the id to its second space-separated token; a `committer ` line sets the author to the text from index 10 up to the first `" <"`. The comment grows by the de-indented text plus a newline; the paths grow by the text after the tag. |
| `ChangeSet.CommitIdIsFirstToken` | src/main/java/hudson/plugins/git/GitChangeSet.java:33-34 | A `commit ` line yields an id exactly when something other than spaces follows the prefix. The id is then the first space-delimited token after `commit `. |
| `ChangeSet.CommitterName` | src/main/java/hudson/plugins/git/GitChangeSet.java:38-39 | The name exists exactly when `" <"` does not occur at index 9 and does occur at some index ≥ 10. It is then the text from index 10 up to the first `" <"`. |
| `ChangeSet.ParseThrowsIffMalformed` | src/main/java/hudson/plugins/git/GitChangeSet.java:28-54 | The constructor succeeds exactly when no line is malformed. Otherwise it throws the exception of the first malformed line. |
| `ChangeSet.FirstMalformed` | src/main/java/hudson/plugins/git/GitChangeSet.java:31-51 | Gives the least index of a malformed line, which is where the loop stops. |
| `ChangeSet.ParseMessage` | src/main/java/hudson/plugins/git/GitChangeSet.java:29-53 | The message is the in-order concatenation of the de-indented body lines, each followed by a newline. |
| `ChangeSet.ParseWithoutBodyHasEmptyMessage` | src/main/java/hudson/plugins/git/GitChangeSet.java:29-53 | A non-empty list without body lines has message `""`, not `null`. |
| `ChangeSet.ParsePaths` | src/main/java/hudson/plugins/git/GitChangeSet.java:44-46 | The affected paths are exactly the texts after the tag of the `A`/`C`/`D`/`M`/`R`/`T` tab lines, with duplicates collapsed. |
| `ChangeSet.ParseLastCommitWins` | src/main/java/hudson/plugins/git/GitChangeSet.java:33-34 | The id comes from the last `commit ` line, and is `null` when there is none. |
| `ChangeSet.ParseLastCommitterWins` | src/main/java/hudson/plugins/git/GitChangeSet.java:38-41 | The author comes from the last `committer ` line, never from `author ` lines, and is `null` when there is none. |
| `ChangeSet.IgnoredLineIsInvisible` | src/main/java/hudson/plugins/git/GitChangeSet.java:31-51 | Inserting an ignored line anywhere into a non-empty list leaves the result unchanged. |
| `ChangeSet.FoldAppend` | src/main/java/hudson/plugins/git/GitChangeSet.java:31-51 | The loop over `a + b` runs the loop over `a`, then over `b` from the state where it stopped. |
| `ChangeSet.CommitIdRoundTrip` | src/main/java/hudson/plugins/git/GitChangeSet.java:34 | `commit <id>` followed by nothing or by space-led text gives back the space-free id. |
| `ChangeSet.CommitterNameRoundTrip` | src/main/java/hudson/plugins/git/GitChangeSet.java:39 | `committer <name> <...` gives back the name whenever the name holds no `<`. |
| `ChangeSet.RenderParseRoundTrip` | src/main/java/hudson/plugins/git/GitChangeSet.java:22-54 | Parsing a rendered record gives back its id, committer name, message lines joined with newlines, and the set of its changed paths. |
| `ChangeSet.BlankLinesInvisible` | src/main/java/hudson/plugins/git/GitChangeSet.java:32 | The blank lines around the message of a record do not change the parse. |
| `ChangeSet.Example` | src/main/java/hudson/plugins/git/GitChangeSet.java:22-54 | The lines `commit abc123`, `committer Jane Doe <jane@x.com> 1234567890 +0000`, a blank line, `    Fix bug`, a blank line and `M<TAB>src/file.go` parse to id `abc123`, author `Jane Doe`, message `Fix bug\n` and paths `{src/file.go}`. |
| `JavaString.SecondTokenOfSplit` | src/main/java/hudson/plugins/git/GitChangeSet.java:34 | `split(" ")[1]` of `head + " " + rest` exists exactly when `rest` has a non-space character. It is then the first token of `rest`, including the empty token when `rest` starts with a space. |
| `JavaString.IndexOf` | src/main/java/hudson/plugins/git/GitChangeSet.java:39 | `indexOf(" <")` gives the first occurrence, or -1 when there is none. |
| `JavaString.Substring` | src/main/java/hudson/plugins/git/GitChangeSet.java:39 | `substring(b, e)` throws exactly when `b < 0`, `e` exceeds the length, or `b > e`. Otherwise it holds the characters from `b` to `e`. |
| `JavaString.JoinPieces` | src/main/java/hudson/plugins/git/GitChangeSet.java:34 | Splitting at every separator and joining with that separator gives back the string. |
| `GitScm.EnsureClonedAndFetched` | src/main/java/hudson/plugins/git/GitSCM.java:218-227 | A clone of the configured source is issued exactly when there is no repository, and then comes first. Submodule initialisation is issued exactly when a clone happened and submodules exist, and then comes right after the clone. The fetch is issued once, as the last command. |
| `GitScm.GetOrCreateLastProperty` | src/main/java/hudson/plugins/git/GitSCM.java:229-236 | An existing property is returned and the project left as it was. Otherwise a property with a `null` hash is added and returned. The returned hash is the stored one. |
| `GitScm.GetOrCreateIdempotent` | src/main/java/hudson/plugins/git/GitSCM.java:229-236 | A second call returns the same property and adds nothing. |
| `GitScm.PollChanges` | src/main/java/hudson/plugins/git/GitSCM.java:53-68 | While the project is building: `false`, no git command at all, project unchanged. Otherwise: `true` exactly when the configured branch resolves to a hash that differs from the stored one, where a `null` stored hash differs from any tip. Only clone-and-fetch commands and one lookup of the configured branch are issued, and the stored hash is not altered. |
| `GitScm.CheckoutBuild` | src/main/java/hudson/plugins/git/GitSCM.java:71-112 | The result is `false` exactly when the merge path is taken and the merge fails. The stored hash is not altered. The property is created only when the result is `true`. |
| `GitScm.CheckoutOrder` | src/main/java/hudson/plugins/git/GitSCM.java:71-112 | A checkout begins with the clone-and-fetch commands. Once a clean, a tip lookup or a change log has been issued, no checkout, submodule update or merge follows. The tip of the expanded branch is looked up exactly when the checkout succeeds. |
| `GitScm.CheckoutUpdatesWorkspace` | src/main/java/hudson/plugins/git/GitSCM.java:80-98 | Right after clone-and-fetch comes the only checkout: of the expanded merge target on the merge path, of the expanded branch otherwise. Submodules are updated exactly when the checked-out tree declares them, immediately after that checkout. There is at most one merge, and it comes after the checkout and the submodule update. |
| `GitScm.MergeOnlyOnMergePath` | src/main/java/hudson/plugins/git/GitSCM.java:80-91 | A merge is attempted exactly when merging is on and the expanded branch differs from the expanded merge target. The merge is always of the expanded branch. |
| `GitScm.SelfMergeIsPlainCheckout` | src/main/java/hudson/plugins/git/GitSCM.java:80-97 | When the expanded names are equal, a checkout with merging on behaves exactly as one with merging off. |
| `GitScm.MergeFailureStops` | src/main/java/hudson/plugins/git/GitSCM.java:82-91 | A failed merge gives `false` and leaves the project as it was. It issues no clean and no change log, and the failed merge is the last command. |
| `GitScm.HeadAfterCheckout` | src/main/java/hudson/plugins/git/GitSCM.java:80-98 | The last branch checked out is the expanded merge target on the merge path, and the expanded branch otherwise. |
| `GitScm.CleanWhenConfigured` | src/main/java/hudson/plugins/git/GitSCM.java:100-102 | The workspace is cleaned exactly when the clean flag is set and the checkout succeeds, and only after every checkout and merge. |
| `GitScm.LogWhenBothHashesKnown` | src/main/java/hudson/plugins/git/GitSCM.java:104-111 | A change log is written exactly when the checkout succeeds and both the stored hash and the tip of the expanded branch are non-`null`. It runs from the stored hash to the tip and is the last command. |
| `GitScm.CheckoutAfterClone` | src/main/java/hudson/plugins/git/GitSCM.java:218-227 | Whether a repository already exists changes only the clone-and-fetch prefix. Over an existing clone, a checkout issues a fetch and then the same commands, with the same result and project. |
| `GitScm.PollAgreesWithCheckout` | src/main/java/hudson/plugins/git/GitSCM.java:63-106 | For a build without parameters, poll and checkout look up the same branch. After a poll that saw no change, a checkout's change log, if any, runs from a hash to itself. |
| `GitScm.ExpansionOfNames` | src/main/java/hudson/plugins/git/GitSCM.java:202-216 | Without parameters the branch and the merge target are used as configured. Equal configured names stay equal after expansion. |
| `GitScm.SameNameNeverMerges` | src/main/java/hudson/plugins/git/GitSCM.java:80 | A branch configured as its own merge target is never merged, and its checkout succeeds. |

## Left out

- `DescriptorImpl` (form binding, the stored git executable path, the `git --version` check): user interface and process I/O.
- `buildEnvVars`: environment export that swallows every exception, and it calls `getRemoteBranch`, which is not part of this model.
- The bodies of the git wrapper (`GitAPI`): process invocation and filesystem effects are abstracted as trace events and fixed query answers. Exceptions from clone, fetch, checkout, clean or log are not modelled; only the merge failure, which `checkout` catches, is.
- `workspace.mkdirs()`, the changelog file handle, and every listener log message: I/O.
- `getAuthor` (`User.get` on the author name) and `setParent`: lookups in the host application. The author is kept as the raw name string.
- The constructor `GitSCM(...)` and its plain getters: they only store and return the configuration, which is the `Config` datatype.
- `null` configuration strings: configuration values are plain strings. With merging on, a `null` branch makes `checkout` throw a NullPointerException at the comparison on GitSCM.java:80. A `null` merge target instead compares unequal, takes the merge path and reaches `git.checkout(null)` on line 82. With merging off the merge target is never read, and a `null` branch is passed to `git.checkout` the same way. What the wrapper does with `null` is not part of this model.
- Java strings and `null` list elements: Dafny's `char` is a Unicode scalar value, so a string holding a lone UTF-16 surrogate cannot be represented. A `null` element of the commit's line list, which would throw at GitChangeSet.java:32, cannot occur in a `seq<string>`. Neither arises from real log text.
- An exception from `project.addProperty` in `getOrCreateLastProperty`: persistence I/O.
- Splitting a multi-commit log into per-commit blocks: `GitChangeLogParser` is not part of this model.
- Refs that move during a call: the wrapper's answers are fixed for the whole call of poll or checkout.

=== FILE: change_set.dfy ===
/**
  The commit-record parser of `GitChangeSet`: the lines of one
  raw-format commit record are classified by a fixed first-match
  prefix dispatch and folded, left to right, into an entry holding an id,
  the committer's name, the message and the set of affected paths.
 */
module ChangeSet {
  import opened JavaString
  import opened Seqs

  const CommitPrefix := "commit "
  const TreePrefix := "tree "
  const ParentPrefix := "parent "
  const CommitterPrefix := "committer "
  const AuthorPrefix := "author "
  const BodyIndent := "    "

  /** The status letters of a raw diff line that name an affected path. */
  const PathTags: set<char> := {'A', 'C', 'D', 'M', 'R', 'T'}

  /** One parsed commit; `None` is a field the constructor left `null`. */
  datatype Entry = Entry(id: Option<string>, author: Option<string>, msg: Option<string>, affectedPaths: set<string>)

  /** The entry of an empty line list: nothing is parsed. */
  const Unparsed := Entry(None, None, None, {})

  /** The runtime exceptions `parseCommit` lets escape, with the offending line. */
  datatype ParseError =
    | NoCommitId(line: string)       // `line.split(" ")[1]` is out of bounds
    | NoCommitterName(line: string)  // `line.substring(10, line.indexOf(" <"))` is out of bounds

  datatype Result<+T> = Ok(value: T) | Thrown(error: ParseError)

  /** The state of the parsing loop: the fields set so far and the message text gathered so far. */
  datatype Scan = Scan(id: Option<string>, author: Option<string>, comment: string, paths: set<string>)

  const Start := Scan(None, None, "", {})

  /** Which branch of the dispatch a line takes. */
  datatype LineKind =
    | Blank | CommitLine | TreeLine | ParentLine | CommitterLine | AuthorLine | BodyLine | PathLine | OtherLine

  /** A status letter followed by a tab. */
  predicate IsPathLine(line: string) {
    |line| >= 2 && line[0] in PathTags && line[1] == '\t'
  }

  /** The characters that tell the dispatch prefixes apart. */
  lemma PrefixMarks(line: string)
    ensures StartsWith(line, CommitPrefix) ==> line[0] == 'c' && line[6] == ' '
    ensures StartsWith(line, TreePrefix) ==> line[0] == 't'
    ensures StartsWith(line, ParentPrefix) ==> line[0] == 'p'
    ensures StartsWith(line, CommitterPrefix) ==> line[0] == 'c' && line[6] == 't' && forall j :: 0 <= j < 9 ==> line[j] != ' '
    ensures StartsWith(line, AuthorPrefix) ==> line[0] == 'a'
    ensures StartsWith(line, BodyIndent) ==> line[0] == ' '
  {
    if StartsWith(line, CommitPrefix) {
      assert line[..7][0] == line[0] && line[..7][6] == line[6];
    }
    if StartsWith(line, TreePrefix) {
      assert line[..5][0] == line[0];
    }
    if StartsWith(line, ParentPrefix) {
      assert line[..7][0] == line[0];
    }
    if StartsWith(line, CommitterPrefix) {
      assert forall j :: 0 <= j < 10 ==> line[..10][j] == line[j];
    }
    if StartsWith(line, AuthorPrefix) {
      assert line[..7][0] == line[0];
    }
    if StartsWith(line, BodyIndent) {
      assert line[..4][0] == line[0];
    }
  }

  /**
    The first-match dispatch of `parseCommit`. The prefixes exclude one another,
    so each kind is also characterised on its own, whatever the order of the tests.
   */
  function Classify(line: string): (k: LineKind)
    ensures k == Blank <==> |line| == 0
    ensures k == CommitLine <==> StartsWith(line, CommitPrefix)
    ensures k == TreeLine <==> StartsWith(line, TreePrefix)
    ensures k == ParentLine <==> StartsWith(line, ParentPrefix)
    ensures k == CommitterLine <==> StartsWith(line, CommitterPrefix)
    ensures k == AuthorLine <==> StartsWith(line, AuthorPrefix)
    ensures k == BodyLine <==> StartsWith(line, BodyIndent)
    ensures k == PathLine <==> IsPathLine(line)
  {
    PrefixMarks(line);
    if |line| == 0 then Blank
    else if StartsWith(line, CommitPrefix) then CommitLine
    else if StartsWith(line, TreePrefix) then TreeLine
    else if StartsWith(line, ParentPrefix) then ParentLine
    else if StartsWith(line, CommitterPrefix) then CommitterLine
    else if StartsWith(line, AuthorPrefix) then AuthorLine
    else if StartsWith(line, BodyIndent) then BodyLine
    else if IsPathLine(line) then PathLine
    else OtherLine
  }

  /** Lines that no branch of the dispatch stores anything from. */
  predicate Ignored(line: string) {
    Classify(line) in {Blank, TreeLine, ParentLine, AuthorLine, OtherLine}
  }

  /** The id a `commit ` line names: `line.split(" ")[1]`, `None` when Java throws. */
  function CommitId(line: string): Option<string> {
    ElementAt(Split(line, ' '), 1)
  }

  /**
    The id of a `commit ` line is the text between its first and second space;
    it is missing exactly when everything after `commit ` is spaces.
   */
  lemma CommitIdIsFirstToken(line: string)
    requires StartsWith(line, CommitPrefix)
    ensures CommitId(line).Some? <==> exists i :: 7 <= i < |line| && line[i] != ' '
    ensures CommitId(line).Some? ==> FirstToken(line[7..], CommitId(line).value)
  {
    var rest := line[7..];
    assert line == "commit" + " " + rest;
    SecondTokenOfSplit("commit", rest);
    assert forall i :: 7 <= i < |line| ==> line[i] == rest[i - 7];
    if exists i :: 0 <= i < |rest| && rest[i] != ' ' {
      var i :| 0 <= i < |rest| && rest[i] != ' ';
      assert line[i + 7] != ' ';
    }
  }

  /** The name of a `committer ` line: `line.substring(10, line.indexOf(" <"))`, `None` when Java throws. */
  function CommitterName(line: string): (r: Option<string>)
    requires StartsWith(line, CommitterPrefix)
    ensures r.Some? <==> !OccursAt(line, " <", 9) && exists j :: 10 <= j && OccursAt(line, " <", j)
    ensures r.Some? ==> StartsWith(line[10..], r.value + " <")
    ensures r.Some? ==> forall j :: 0 <= j < 10 + |r.value| ==> !OccursAt(line, " <", j)
  {
    PrefixMarks(line);
    var k := IndexOf(line, " <");
    assert forall j :: 0 <= j < 9 ==> !OccursAt(line, " <", j) by {
      forall j | 0 <= j < 9 ensures !OccursAt(line, " <", j) {
        assert line[j..j + 2][0] == line[j];
      }
    }
    assert k >= 10 ==> line[10..k + 2] == line[10..k] + " <";
    Substring(line, 10, k)
  }

  /** A line on which `parseCommit` throws. */
  predicate Malformed(line: string) {
    || (Classify(line) == CommitLine && CommitId(line).None?)
    || (Classify(line) == CommitterLine && CommitterName(line).None?)
  }

  /** The exception a malformed line raises. */
  function ErrorOf(line: string): ParseError
    requires Malformed(line)
  {
    if Classify(line) == CommitLine then NoCommitId(line) else NoCommitterName(line)
  }

  /** What one line contributes to the message. */
  function BodyText(line: string): string {
    if Classify(line) == BodyLine then line[4..] + "\n" else ""
  }

  /** The paths a single line contributes. */
  function LinePaths(line: string): set<string> {
    if Classify(line) == PathLine then {line[2..]} else {}
  }

  /** One iteration of the parsing loop. */
  function Step(sc: Scan, line: string): (r: Result<Scan>)
    ensures r.Thrown? <==> Malformed(line)
    ensures r.Thrown? ==> r.error == ErrorOf(line)
    ensures Ignored(line) ==> r == Ok(sc)
    ensures r.Ok? ==> r.value.id != sc.id ==> Classify(line) == CommitLine
    ensures r.Ok? && Classify(line) == CommitLine ==> r.value.id == CommitId(line)
    ensures r.Ok? && Classify(line) == CommitterLine ==> r.value.author == CommitterName(line)
    ensures r.Ok? ==> r.value.author != sc.author ==> Classify(line) == CommitterLine
    ensures r.Ok? ==> r.value.comment != sc.comment ==> Classify(line) == BodyLine
    ensures r.Ok? ==> r.value.paths != sc.paths ==> Classify(line) == PathLine
    ensures r.Ok? ==> r.value.comment == sc.comment + BodyText(line)
    ensures r.Ok? ==> r.value.paths == sc.paths + LinePaths(line)
  {
    match Classify(line)
    case CommitLine =>
      (match CommitId(line)
       case None => Thrown(NoCommitId(line))
       case Some(id) => Ok(sc.(id := Some(id))))
    case CommitterLine =>
      (match CommitterName(line)
       case None => Thrown(NoCommitterName(line))
       case Some(name) => Ok(sc.(author := Some(name))))
    case BodyLine => Ok(sc.(comment := sc.comment + line[4..] + "\n"))
    case PathLine => Ok(sc.(paths := sc.paths + {line[2..]}))
    case _ => Ok(sc)
  }

  /** The parsing loop over the remaining lines, stopping at the first exception. */
  function Fold(sc: Scan, lines: seq<string>): Result<Scan>
    decreases |lines|
  {
    if |lines| == 0 then Ok(sc)
    else
      match Step(sc, lines[0])
      case Thrown(e) => Thrown(e)
      case Ok(next) => Fold(next, lines[1..])
  }

  /** The end of `parseCommit`: the gathered comment becomes the message, which is then never `null`. */
  function Finish(sc: Scan): Entry {
    Entry(sc.id, sc.author, Some(sc.comment), sc.paths)
  }

  /** The constructor `GitChangeSet(List<String>)`: parsing happens only for a non-empty list. */
  function Parse(lines: seq<string>): (r: Result<Entry>)
    ensures |lines| == 0 ==> r == Ok(Unparsed)
    ensures |lines| > 0 && r.Ok? ==> r.value.msg.Some?
  {
    if |lines| == 0 then Ok(Unparsed)
    else
      var run := Fold(Start, lines);
      if run.Thrown? then Thrown(run.error) else Ok(Finish(run.value))
  }

  // ----- Reference definitions, independent of the loop -----

  /** No line of the list makes `parseCommit` throw. */
  predicate WellFormed(lines: seq<string>) {
    forall i :: 0 <= i < |lines| ==> !Malformed(lines[i])
  }

  /** The message: the de-indented body lines, each ended by a newline, in order. */
  function MessageOf(lines: seq<string>): string
    decreases |lines|
  {
    if |lines| == 0 then "" else BodyText(lines[0]) + MessageOf(lines[1..])
  }

  /** The affected paths: the text after the tag of every path line. */
  function PathsOf(lines: seq<string>): set<string> {
    set i | 0 <= i < |lines| && Classify(lines[i]) == PathLine :: lines[i][2..]
  }

  /** Line `i` is of kind `k` and no later line is. */
  predicate IsLast(lines: seq<string>, i: int, k: LineKind) {
    0 <= i < |lines| && Classify(lines[i]) == k && forall j :: i < j < |lines| ==> Classify(lines[j]) != k
  }

  /** No line is of kind `k`. */
  predicate NoneOfKind(lines: seq<string>, k: LineKind) {
    forall i :: 0 <= i < |lines| ==> Classify(lines[i]) != k
  }

  // ----- The loop against the reference definitions -----

  /** The rest of a well-formed list is well formed, and so is its first line. */
  lemma WellFormedTail(lines: seq<string>)
    requires |lines| > 0 && WellFormed(lines)
    ensures !Malformed(lines[0]) && WellFormed(lines[1..])
  {
    forall i | 0 <= i < |lines| - 1 ensures !Malformed(lines[1..][i]) {
      assert lines[1..][i] == lines[i + 1];
    }
  }

  lemma PathsOfCons(lines: seq<string>)
    requires |lines| > 0
    ensures PathsOf(lines) == LinePaths(lines[0]) + PathsOf(lines[1..])
  {
    var tail := lines[1..];
    forall p | p in PathsOf(lines) ensures p in LinePaths(lines[0]) + PathsOf(tail) {
      var i :| 0 <= i < |lines| && Classify(lines[i]) == PathLine && p == lines[i][2..];
      if i > 0 {
        assert tail[i - 1] == lines[i];
      }
    }
    forall p | p in PathsOf(tail) ensures p in PathsOf(lines) {
      var i :| 0 <= i < |tail| && Classify(tail[i]) == PathLine && p == tail[i][2..];
      assert lines[i + 1] == tail[i];
    }
  }

  /** Over well-formed lines the loop runs to the end without throwing. */
  lemma {:induction false} FoldFinishes(sc: Scan, lines: seq<string>)
    requires WellFormed(lines)
    ensures Fold(sc, lines).Ok?
    decreases |lines|
  {
    if |lines| > 0 {
      WellFormedTail(lines);
      FoldFinishes(Step(sc, lines[0]).value, lines[1..]);
    }
  }

  /** Over well-formed lines the loop appends exactly the message of the lines. */
  lemma {:induction false} FoldGathersMessage(sc: Scan, lines: seq<string>)
    requires WellFormed(lines)
    ensures Fold(sc, lines).Ok? && Fold(sc, lines).value.comment == sc.comment + MessageOf(lines)
    decreases |lines|
  {
    if |lines| > 0 {
      WellFormedTail(lines);
      var tail := lines[1..];
      var next := Step(sc, lines[0]).value;
      assert Fold(sc, lines) == Fold(next, tail);
      FoldGathersMessage(next, tail);
      var bt, mt := BodyText(lines[0]), MessageOf(tail);
      assert next.comment == sc.comment + bt;
      assert MessageOf(lines) == bt + mt;
      Assoc(sc.comment, bt, mt);
    }
  }

  /** Over well-formed lines the loop adds exactly the paths of the lines. */
  lemma {:induction false} FoldGathersPaths(sc: Scan, lines: seq<string>)
    requires WellFormed(lines)
    ensures Fold(sc, lines).Ok? && Fold(sc, lines).value.paths == sc.paths + PathsOf(lines)
    decreases |lines|
  {
    if |lines| > 0 {
      WellFormedTail(lines);
      var next := Step(sc, lines[0]).value;
      assert Fold(sc, lines) == Fold(next, lines[1..]);
      FoldGathersPaths(next, lines[1..]);
      PathsOfCons(lines);
    }
  }

  /** Over well-formed lines the id is that of the last `commit ` line, or unchanged when there is none. */
  lemma {:induction false} FoldLastCommitWins(sc: Scan, lines: seq<string>)
    requires WellFormed(lines)
    ensures Fold(sc, lines).Ok?
    ensures NoneOfKind(lines, CommitLine) ==> Fold(sc, lines).value.id == sc.id
    ensures forall i :: IsLast(lines, i, CommitLine) ==> Fold(sc, lines).value.id == CommitId(lines[i])
    decreases |lines|
  {
    FoldFinishes(sc, lines);
    if |lines| > 0 {
      var tail := lines[1..];
      WellFormedTail(lines);
      var next := Step(sc, lines[0]).value;
      FoldLastCommitWins(next, tail);
      assert Fold(sc, lines) == Fold(next, tail);
      forall i | IsLast(lines, i, CommitLine) ensures Fold(sc, lines).value.id == CommitId(lines[i]) {
        if i == 0 {
          assert NoneOfKind(tail, CommitLine) by {
            forall j | 0 <= j < |tail| ensures Classify(tail[j]) != CommitLine {
              assert tail[j] == lines[j + 1];
            }
          }
        } else {
          assert IsLast(tail, i - 1, CommitLine) by {
            forall j | i - 1 < j < |tail| ensures Classify(tail[j]) != CommitLine {
              assert tail[j] == lines[j + 1];
            }
          }
        }
      }
      if NoneOfKind(lines, CommitLine) {
        assert NoneOfKind(tail, CommitLine) by {
          forall j | 0 <= j < |tail| ensures Classify(tail[j]) != CommitLine {
            assert tail[j] == lines[j + 1];
          }
        }
      }
    }
  }

  /** Over well-formed lines the author is the name on the last `committer ` line, or unchanged when there is none. */
  lemma {:induction false} FoldLastCommitterWins(sc: Scan, lines: seq<string>)
    requires WellFormed(lines)
    ensures Fold(sc, lines).Ok?
    ensures NoneOfKind(lines, CommitterLine) ==> Fold(sc, lines).value.author == sc.author
    ensures forall i :: IsLast(lines, i, CommitterLine) ==> Fold(sc, lines).value.author == CommitterName(lines[i])
    decreases |lines|
  {
    FoldFinishes(sc, lines);
    if |lines| > 0 {
      var tail := lines[1..];
      WellFormedTail(lines);
      var next := Step(sc, lines[0]).value;
      FoldLastCommitterWins(next, tail);
      assert Fold(sc, lines) == Fold(next, tail);
      forall i | IsLast(lines, i, CommitterLine) ensures Fold(sc, lines).value.author == CommitterName(lines[i]) {
        if i == 0 {
          assert NoneOfKind(tail, CommitterLine) by {
            forall j | 0 <= j < |tail| ensures Classify(tail[j]) != CommitterLine {
              assert tail[j] == lines[j + 1];
            }
          }
        } else {
          assert IsLast(tail, i - 1, CommitterLine) by {
            forall j | i - 1 < j < |tail| ensures Classify(tail[j]) != CommitterLine {
              assert tail[j] == lines[j + 1];
            }
          }
        }
      }
      if NoneOfKind(lines, CommitterLine) {
        assert NoneOfKind(tail, CommitterLine) by {
          forall j | 0 <= j < |tail| ensures Classify(tail[j]) != CommitterLine {
            assert tail[j] == lines[j + 1];
          }
        }
      }
    }
  }

  /** The loop stops with the exception of the first malformed line. */
  lemma {:induction false} FoldThrowsAtFirstMalformed(sc: Scan, lines: seq<string>, i: int)
    requires 0 <= i < |lines| && Malformed(lines[i])
    requires forall j :: 0 <= j < i ==> !Malformed(lines[j])
    ensures Fold(sc, lines) == Thrown(ErrorOf(lines[i]))
    decreases |lines|
  {
    if i > 0 {
      var tail := lines[1..];
      assert !Malformed(lines[0]);
      forall j | 0 <= j < i - 1 ensures !Malformed(tail[j]) {
        assert tail[j] == lines[j + 1];
      }
      FoldThrowsAtFirstMalformed(Step(sc, lines[0]).value, tail, i - 1);
    }
  }

  /** Running the loop over `a + b` is running it over `a`, then over `b` from where it stopped. */
  lemma {:induction false} FoldAppend(sc: Scan, a: seq<string>, b: seq<string>)
    ensures Fold(sc, a + b) == (match Fold(sc, a) case Thrown(e) => Thrown(e) case Ok(mid) => Fold(mid, b))
    decreases |a|
  {
    if |a| == 0 {
      assert a + b == b;
    } else {
      assert (a + b)[0] == a[0];
      assert (a + b)[1..] == a[1..] + b;
      match Step(sc, a[0])
      case Thrown(e) =>
      case Ok(next) => FoldAppend(next, a[1..], b);
    }
  }

  // ----- Properties of the constructor -----

  /** The constructor throws exactly when some line is malformed, and then with the first such line's exception. */
  lemma ParseThrowsIffMalformed(lines: seq<string>)
    ensures Parse(lines).Ok? <==> WellFormed(lines)
    ensures forall i :: 0 <= i < |lines| && Malformed(lines[i]) && (forall j :: 0 <= j < i ==> !Malformed(lines[j]))
              ==> Parse(lines) == Thrown(ErrorOf(lines[i]))
  {
    if WellFormed(lines) {
      FoldFinishes(Start, lines);
    } else {
      var i :| 0 <= i < |lines| && Malformed(lines[i]);
      var first := FirstMalformed(lines, i);
      FoldThrowsAtFirstMalformed(Start, lines, first);
    }
    forall i | 0 <= i < |lines| && Malformed(lines[i]) && (forall j :: 0 <= j < i ==> !Malformed(lines[j]))
      ensures Parse(lines) == Thrown(ErrorOf(lines[i]))
    {
      FoldThrowsAtFirstMalformed(Start, lines, i);
    }
  }

  /** The least index of a malformed line, given that line `i` is one. */
  function FirstMalformed(lines: seq<string>, i: int): (f: int)
    requires 0 <= i < |lines| && Malformed(lines[i])
    ensures 0 <= f <= i && Malformed(lines[f])
    ensures forall j :: 0 <= j < f ==> !Malformed(lines[j])
    decreases i
  {
    if exists j :: 0 <= j < i && Malformed(lines[j]) then
      var j :| 0 <= j < i && Malformed(lines[j]);
      FirstMalformed(lines, j)
    else i
  }

  /** For a non-empty well-formed list the message is the concatenation of the de-indented body lines, never `null`. */
  lemma {:induction false} ParseMessage(lines: seq<string>)
    requires |lines| > 0 && WellFormed(lines)
    ensures Parse(lines).Ok? && Parse(lines).value.msg == Some(MessageOf(lines))
  {
    FoldGathersMessage(Start, lines);
    var f := Fold(Start, lines).value;
    assert Parse(lines) == Ok(Finish(f));
    var m := MessageOf(lines);
    assert f.comment == Start.comment + m;
    assert Start.comment + m == m;
    assert f.comment == m;
    assert Finish(f).msg == Some(m);
  }

  /** A non-empty well-formed list without body lines has the empty message, not `null`. */
  lemma {:induction false} ParseWithoutBodyHasEmptyMessage(lines: seq<string>)
    requires |lines| > 0 && WellFormed(lines) && NoneOfKind(lines, BodyLine)
    ensures Parse(lines).Ok? && Parse(lines).value.msg == Some("")
  {
    ParseMessage(lines);
    NoBodyNoMessage(lines);
  }

  lemma {:induction false} NoBodyNoMessage(lines: seq<string>)
    requires NoneOfKind(lines, BodyLine)
    ensures MessageOf(lines) == ""
    decreases |lines|
  {
    if |lines| > 0 {
      assert NoneOfKind(lines[1..], BodyLine) by {
        forall j | 0 <= j < |lines| - 1 ensures Classify(lines[1..][j]) != BodyLine {
          assert lines[1..][j] == lines[j + 1];
        }
      }
      NoBodyNoMessage(lines[1..]);
    }
  }

  /** The affected paths of a well-formed list are exactly the paths of its path lines, duplicates collapsed. */
  lemma ParsePaths(lines: seq<string>)
    requires WellFormed(lines)
    ensures Parse(lines).Ok? && Parse(lines).value.affectedPaths == PathsOf(lines)
  {
    FoldGathersPaths(Start, lines);
  }

  /** The id comes from the last `commit ` line and is `null` when there is none. */
  lemma ParseLastCommitWins(lines: seq<string>)
    requires WellFormed(lines)
    ensures Parse(lines).Ok?
    ensures NoneOfKind(lines, CommitLine) ==> Parse(lines).value.id == None
    ensures forall i :: IsLast(lines, i, CommitLine) ==> Parse(lines).value.id == CommitId(lines[i])
  {
    FoldLastCommitWins(Start, lines);
  }

  /** The author comes from the last `committer ` line (never from `author ` lines) and is `null` when there is none. */
  lemma ParseLastCommitterWins(lines: seq<string>)
    requires WellFormed(lines)
    ensures Parse(lines).Ok?
    ensures NoneOfKind(lines, CommitterLine) ==> Parse(lines).value.author == None
    ensures forall i :: IsLast(lines, i, CommitterLine) ==> Parse(lines).value.author == CommitterName(lines[i])
  {
    FoldLastCommitterWins(Start, lines);
  }

  /** Inserting a line that the dispatch ignores into a non-empty list changes nothing. */
  lemma IgnoredLineIsInvisible(a: seq<string>, line: string, b: seq<string>)
    requires Ignored(line) && |a + b| > 0
    ensures Parse(a + [line] + b) == Parse(a + b)
  {
    FoldAppend(Start, a, [line] + b);
    assert a + [line] + b == a + ([line] + b);
    FoldAppend(Start, a, b);
    match Fold(Start, a)
    case Thrown(e) =>
    case Ok(mid) =>
      assert ([line] + b)[0] == line;
      assert ([line] + b)[1..] == b;
  }

  // ----- Rendering a commit record and parsing it back -----

  /** A `commit ` line naming a space-free id, possibly followed by more space-led text, yields that id. */
  lemma CommitIdRoundTrip(id: string, rest: string)
    requires id != "" && ' ' !in id && (rest == "" || rest[0] == ' ')
    ensures StartsWith(CommitPrefix + id + rest, CommitPrefix)
    ensures CommitId(CommitPrefix + id + rest) == Some(id)
  {
    var line := CommitPrefix + id + rest;
    assert line[..7] == CommitPrefix;
    CommitIdIsFirstToken(line);
    assert line[7] == id[0];
    assert id[0] in id;
    assert line[7..] == id + rest;
    assert (id + rest)[..|id|] == id;
    assert FirstToken(id + rest, id);
    FirstTokenUnique(id + rest, id, CommitId(line).value);
  }

  /** A `committer ` line: the name, then ` <`, then the rest of the identity and the timestamp. */
  function CommitterLineOf(name: string, rest: string): string {
    CommitterPrefix + name + " <" + rest
  }

  /** Where the parts of a committer line sit. */
  lemma CommitterLineLayout(name: string, rest: string)
    ensures var line := CommitterLineOf(name, rest);
            var n := |name|;
            && |line| == 12 + n + |rest|
            && line[..10] == CommitterPrefix
            && (forall i :: 0 <= i < 10 ==> line[i] == CommitterPrefix[i])
            && (forall i :: 0 <= i < n ==> line[10 + i] == name[i])
            && line[10 + n] == ' ' && line[11 + n] == '<'
            && line[10..10 + n] == name
  {
    var line := CommitterLineOf(name, rest);
    var n := |name|;
    IndexAppend(CommitterPrefix + name + " <", rest);
    IndexAppend(CommitterPrefix + name, " <");
    IndexAppend(CommitterPrefix, name);
    assert line[..10] == CommitterPrefix;
    assert line[10..10 + n] == name;
  }

  /** With no `<` among `line[1..m + 1]`, the text ` <` occurs nowhere before `m`. */
  lemma NoArrowBefore(line: string, m: nat)
    requires m < |line|
    requires forall i :: 1 <= i <= m ==> line[i] != '<'
    ensures forall j :: 0 <= j < m ==> !OccursAt(line, " <", j)
  {
    forall j | 0 <= j < m ensures !OccursAt(line, " <", j) {
      if j + 2 <= |line| {
        assert line[j..j + 2][1] == line[j + 1];
      }
    }
  }

  /** The name of a committer line is recovered exactly when it holds no `<`. */
  lemma CommitterNameRoundTrip(name: string, rest: string)
    requires '<' !in name
    ensures StartsWith(CommitterLineOf(name, rest), CommitterPrefix)
    ensures CommitterName(CommitterLineOf(name, rest)) == Some(name)
  {
    var line := CommitterLineOf(name, rest);
    var n := |name|;
    CommitterLineLayout(name, rest);
    assert forall i :: 1 <= i <= 10 + n ==> line[i] != '<' by {
      forall i | 1 <= i <= 10 + n ensures line[i] != '<' {
        if 10 <= i < 10 + n {
          assert name[i - 10] in name;
        }
      }
    }
    NoArrowBefore(line, 10 + n);
    assert line[10 + n..12 + n] == " <";
    assert OccursAt(line, " <", 10 + n);
    var k := IndexOf(line, " <");
    assert k == 10 + n;
  }

  /** One affected path with its diff status letter. */
  datatype Change = Change(tag: char, path: string)

  /** The message lines, indented by four spaces. */
  function BodyLines(body: seq<string>): seq<string> {
    seq(|body|, i requires 0 <= i < |body| => BodyIndent + body[i])
  }

  /** The raw diff lines: status letter, tab, path. */
  function ChangeLines(changes: seq<Change>): seq<string> {
    seq(|changes|, i requires 0 <= i < |changes| => [changes[i].tag, '\t'] + changes[i].path)
  }

  /** The message lines, each ended by a newline. */
  function JoinBody(body: seq<string>): string
    decreases |body|
  {
    if |body| == 0 then "" else body[0] + "\n" + JoinBody(body[1..])
  }

  /** A raw-format commit record: `commit` and `committer` header lines, indented message, `X<TAB>path` status lines. */
  function Render(id: string, name: string, rest: string, body: seq<string>, changes: seq<Change>): seq<string> {
    [CommitPrefix + id, CommitterLineOf(name, rest)] + BodyLines(body) + ChangeLines(changes)
  }

  /** The message of a concatenation is the concatenation of the messages. */
  lemma {:induction false} MessageOfAppend(a: seq<string>, b: seq<string>)
    ensures MessageOf(a + b) == MessageOf(a) + MessageOf(b)
    decreases |a|
  {
    if |a| == 0 {
      assert a + b == b;
    } else {
      assert (a + b)[0] == a[0];
      assert (a + b)[1..] == a[1..] + b;
      MessageOfAppend(a[1..], b);
      Assoc(BodyText(a[0]), MessageOf(a[1..]), MessageOf(b));
    }
  }

  /** Indented message lines give back the message they were rendered from. */
  lemma {:induction false} MessageOfBodyLines(body: seq<string>)
    ensures MessageOf(BodyLines(body)) == JoinBody(body)
    decreases |body|
  {
    var ls := BodyLines(body);
    if |body| > 0 {
      assert ls[0] == BodyIndent + body[0];
      assert ls[0][..4] == BodyIndent;
      assert Classify(ls[0]) == BodyLine;
      assert ls[0][4..] == body[0];
      assert ls[1..] == BodyLines(body[1..]);
      MessageOfBodyLines(body[1..]);
      Assoc(body[0], "\n", JoinBody(body[1..]));
      Assoc(body[0] + "\n", "", MessageOf(ls[1..]));
    }
  }

  /** Every rendered diff line is a path line carrying its change's path. */
  lemma ChangeLinesArePathLines(changes: seq<Change>)
    requires forall c :: c in changes ==> c.tag in PathTags
    ensures forall i :: 0 <= i < |changes| ==>
              Classify(ChangeLines(changes)[i]) == PathLine && ChangeLines(changes)[i][2..] == changes[i].path
  {
    forall i | 0 <= i < |changes|
      ensures Classify(ChangeLines(changes)[i]) == PathLine && ChangeLines(changes)[i][2..] == changes[i].path
    {
      assert changes[i] in changes;
    }
  }

  /** Every rendered message line is a body line. */
  lemma BodyLinesAreBodyLines(body: seq<string>)
    ensures forall i :: 0 <= i < |body| ==> Classify(BodyLines(body)[i]) == BodyLine
  {
    forall i | 0 <= i < |body| ensures Classify(BodyLines(body)[i]) == BodyLine {
      assert BodyLines(body)[i][..4] == BodyIndent;
    }
  }

  /** The two header lines of a rendered record are of the `commit ` and `committer ` kinds. */
  lemma HeaderKinds(id: string, name: string, rest: string)
    ensures Classify(CommitPrefix + id) == CommitLine
    ensures Classify(CommitterLineOf(name, rest)) == CommitterLine
  {
    assert (CommitPrefix + id)[..7] == CommitPrefix;
    assert CommitterLineOf(name, rest)[..10] == CommitterPrefix;
  }

  /** The two header lines of a rendered record give back the id and the name. */
  lemma HeaderValues(id: string, name: string, rest: string)
    requires id != "" && ' ' !in id && '<' !in name
    ensures CommitId(CommitPrefix + id) == Some(id)
    ensures CommitterName(CommitterLineOf(name, rest)) == Some(name)
  {
    CommitIdRoundTrip(id, "");
    assert CommitPrefix + id + "" == CommitPrefix + id;
    CommitterNameRoundTrip(name, rest);
  }

  /**
    The line kinds of a record: a `commit ` line with an id, a `committer `
    line with a name, `nb` message lines, then path lines only.
   */
  predicate RecordShape(lines: seq<string>, nb: nat) {
    && |lines| >= 2 + nb
    && Classify(lines[0]) == CommitLine && !Malformed(lines[0])
    && Classify(lines[1]) == CommitterLine && !Malformed(lines[1])
    && (forall i :: 2 <= i < 2 + nb ==> Classify(lines[i]) == BodyLine)
    && (forall i :: 2 + nb <= i < |lines| ==> Classify(lines[i]) == PathLine)
  }

  /** A list of that shape is well formed. */
  lemma ShapeWellFormed(lines: seq<string>, nb: nat)
    requires RecordShape(lines, nb)
    ensures WellFormed(lines)
  {
    forall i | 0 <= i < |lines| ensures !Malformed(lines[i]) {
      if i == 0 {
      } else if i == 1 {
      } else {
        BodyAndPathLinesNeverThrow(lines[i]);
      }
    }
  }

  /** Message and path lines never make `parseCommit` throw. */
  lemma BodyAndPathLinesNeverThrow(line: string)
    requires Classify(line) == BodyLine || Classify(line) == PathLine
    ensures !Malformed(line)
  {
  }

  /** In a list of that shape the first line is the last `commit ` line and the second the last `committer ` line. */
  lemma ShapeHeaderIsLast(lines: seq<string>, nb: nat)
    requires RecordShape(lines, nb)
    ensures IsLast(lines, 0, CommitLine) && IsLast(lines, 1, CommitterLine)
  {
    assert forall i :: 2 <= i < |lines| ==> Classify(lines[i]) == BodyLine || Classify(lines[i]) == PathLine;
  }

  /** Two header lines, then message lines, then path lines, make a list of the record shape. */
  lemma ShapeFromParts(l0: string, l1: string, bl: seq<string>, cl: seq<string>)
    requires Classify(l0) == CommitLine && !Malformed(l0)
    requires Classify(l1) == CommitterLine && !Malformed(l1)
    requires forall i :: 0 <= i < |bl| ==> Classify(bl[i]) == BodyLine
    requires forall i :: 0 <= i < |cl| ==> Classify(cl[i]) == PathLine
    ensures RecordShape([l0, l1] + bl + cl, |bl|)
  {
    var head := [l0, l1];
    var lines := head + bl + cl;
    IndexAppend(head, bl);
    IndexAppend(head + bl, cl);
  }

  /** The lines of a rendered record have the record shape. */
  lemma RenderedShape(id: string, name: string, rest: string, body: seq<string>, changes: seq<Change>)
    requires id != "" && ' ' !in id && '<' !in name
    requires forall c :: c in changes ==> c.tag in PathTags
    ensures RecordShape(Render(id, name, rest, body, changes), |body|)
  {
    HeaderKinds(id, name, rest);
    HeaderValues(id, name, rest);
    BodyLinesAreBodyLines(body);
    ChangeLinesArePathLines(changes);
    ShapeFromParts(CommitPrefix + id, CommitterLineOf(name, rest), BodyLines(body), ChangeLines(changes));
  }

  /** A rendered record is well formed; its only `commit ` line is the first, its only `committer ` line the second. */
  lemma RenderWellFormed(id: string, name: string, rest: string, body: seq<string>, changes: seq<Change>)
    requires id != "" && ' ' !in id && '<' !in name
    requires forall c :: c in changes ==> c.tag in PathTags
    ensures var lines := Render(id, name, rest, body, changes);
      WellFormed(lines) && IsLast(lines, 0, CommitLine) && IsLast(lines, 1, CommitterLine)
  {
    RenderedShape(id, name, rest, body, changes);
    ShapeWellFormed(Render(id, name, rest, body, changes), |body|);
    ShapeHeaderIsLast(Render(id, name, rest, body, changes), |body|);
  }

  /** The message of a rendered record is its message lines, each ended by a newline. */
  lemma RenderMessage(id: string, name: string, rest: string, body: seq<string>, changes: seq<Change>)
    requires id != "" && ' ' !in id && '<' !in name
    requires forall c :: c in changes ==> c.tag in PathTags
    ensures MessageOf(Render(id, name, rest, body, changes)) == JoinBody(body)
  {
    var head := [CommitPrefix + id, CommitterLineOf(name, rest)];
    var bl, cl := BodyLines(body), ChangeLines(changes);
    Assoc(head, bl, cl);
    MessageOfAppend(head, bl + cl);
    MessageOfAppend(bl, cl);
    HeaderKinds(id, name, rest);
    assert NoneOfKind(head, BodyLine);
    NoBodyNoMessage(head);
    MessageOfBodyLines(body);
    ChangeLinesArePathLines(changes);
    assert NoneOfKind(cl, BodyLine);
    NoBodyNoMessage(cl);
    var m := JoinBody(body);
    assert MessageOf(bl + cl) == m + "";
    assert m + "" == m;
    assert "" + m == m;
  }

  /** The paths of a concatenation are the paths of its parts. */
  lemma PathsOfAppend(a: seq<string>, b: seq<string>)
    ensures PathsOf(a + b) == PathsOf(a) + PathsOf(b)
  {
    IndexAppend(a, b);
    forall p | p in PathsOf(a + b) ensures p in PathsOf(a) + PathsOf(b) {
      var i :| 0 <= i < |a + b| && Classify((a + b)[i]) == PathLine && p == (a + b)[i][2..];
      if i < |a| {
        assert Classify(a[i]) == PathLine;
      } else {
        assert Classify(b[i - |a|]) == PathLine;
      }
    }
    forall p | p in PathsOf(a) ensures p in PathsOf(a + b) {
      var i :| 0 <= i < |a| && Classify(a[i]) == PathLine && p == a[i][2..];
      assert Classify((a + b)[i]) == PathLine;
    }
    forall p | p in PathsOf(b) ensures p in PathsOf(a + b) {
      var i :| 0 <= i < |b| && Classify(b[i]) == PathLine && p == b[i][2..];
      assert Classify((a + b)[|a| + i]) == PathLine;
    }
  }

  /** Lines without a path line contribute no path. */
  lemma NoPathLineNoPaths(lines: seq<string>)
    requires NoneOfKind(lines, PathLine)
    ensures PathsOf(lines) == {}
  {
  }

  /** The rendered diff lines carry exactly the changes' paths. */
  lemma ChangeLinePaths(changes: seq<Change>)
    requires forall c :: c in changes ==> c.tag in PathTags
    ensures PathsOf(ChangeLines(changes)) == set c | c in changes :: c.path
  {
    var cl := ChangeLines(changes);
    ChangeLinesArePathLines(changes);
    var want := set c | c in changes :: c.path;
    forall p | p in PathsOf(cl) ensures p in want {
      var i :| 0 <= i < |cl| && Classify(cl[i]) == PathLine && p == cl[i][2..];
      assert changes[i] in changes;
    }
    forall p | p in want ensures p in PathsOf(cl) {
      var c :| c in changes && c.path == p;
      var k :| 0 <= k < |changes| && changes[k] == c;
      assert Classify(cl[k]) == PathLine && cl[k][2..] == p;
    }
  }

  /** The affected paths of a rendered record are the paths of its changes. */
  lemma RenderPaths(id: string, name: string, rest: string, body: seq<string>, changes: seq<Change>)
    requires id != "" && ' ' !in id && '<' !in name
    requires forall c :: c in changes ==> c.tag in PathTags
    ensures PathsOf(Render(id, name, rest, body, changes)) == set c | c in changes :: c.path
  {
    var head := [CommitPrefix + id, CommitterLineOf(name, rest)];
    var bl, cl := BodyLines(body), ChangeLines(changes);
    HeaderKinds(id, name, rest);
    BodyLinesAreBodyLines(body);
    PathsOfAppend(head + bl, cl);
    PathsOfAppend(head, bl);
    NoPathLineNoPaths(head);
    NoPathLineNoPaths(bl);
    ChangeLinePaths(changes);
  }

  /**
    Parsing a rendered record gives back its id, committer name, message and
    the set of its changed paths.
   */
  lemma {:induction false} RenderParseRoundTrip(id: string, name: string, rest: string, body: seq<string>, changes: seq<Change>)
    requires id != "" && ' ' !in id && '<' !in name
    requires forall c :: c in changes ==> c.tag in PathTags
    ensures Parse(Render(id, name, rest, body, changes))
         == Ok(Entry(Some(id), Some(name), Some(JoinBody(body)), set c | c in changes :: c.path))
  {
    var lines := Render(id, name, rest, body, changes);
    RenderedShape(id, name, rest, body, changes);
    HeaderValues(id, name, rest);
    RenderWellFormed(id, name, rest, body, changes);
    RenderMessage(id, name, rest, body, changes);
    RenderPaths(id, name, rest, body, changes);
    ParseLastCommitWins(lines);
    ParseLastCommitterWins(lines);
    ParseMessage(lines);
    ParsePaths(lines);
  }

  /** Blank lines between the header, the message and the paths change nothing. */
  lemma BlankLinesInvisible(l0: string, l1: string, l3: string, l5: string)
    ensures Parse([l0, l1, "", l3, "", l5]) == Parse([l0, l1, l3, l5])
  {
    assert Ignored("");
    IgnoredLineIsInvisible([l0, l1, l3], "", [l5]);
    assert [l0, l1, l3] + [""] + [l5] == [l0, l1, l3, "", l5];
    assert [l0, l1, l3] + [l5] == [l0, l1, l3, l5];
    IgnoredLineIsInvisible([l0, l1], "", [l3, "", l5]);
    assert [l0, l1] + [""] + [l3, "", l5] == [l0, l1, "", l3, "", l5];
    assert [l0, l1] + [l3, "", l5] == [l0, l1, l3, "", l5];
  }

  /** A record with a one-line message and one changed path, blank lines around the message. */
  lemma SingleChangeRecord(id: string, name: string, rest: string, line: string, c: Change)
    requires id != "" && ' ' !in id && '<' !in name && c.tag in PathTags
    ensures Parse([CommitPrefix + id, CommitterLineOf(name, rest), "", BodyIndent + line, "", [c.tag, '\t'] + c.path])
         == Ok(Entry(Some(id), Some(name), Some(line + "\n"), {c.path}))
  {
    var l0, l1, l3, l5 := CommitPrefix + id, CommitterLineOf(name, rest), BodyIndent + line, [c.tag, '\t'] + c.path;
    var bl, cl := BodyLines([line]), ChangeLines([c]);
    assert |bl| == 1 && bl[0] == l3;
    assert |cl| == 1 && cl[0] == l5;
    assert Render(id, name, rest, [line], [c]) == [l0, l1, l3, l5];
    RenderParseRoundTrip(id, name, rest, [line], [c]);
    assert [line][1..] == [];
    assert JoinBody([line]) == line + "\n" + "";
    assert line + "\n" + "" == line + "\n";
    assert (set x | x in [c] :: x.path) == {c.path};
    BlankLinesInvisible(l0, l1, l3, l5);
  }

  /**
    The record of a single-commit log with one message line and one modified file:
    `commit abc123`, `committer Jane Doe <jane@x.com> 1234567890 +0000`, a blank line,
    `    Fix bug`, a blank line, `M<TAB>src/file.go`.
   */
  lemma Example()
    ensures Parse([CommitPrefix + "abc123", CommitterLineOf("Jane Doe", "jane@x.com> 1234567890 +0000"), "",
                   BodyIndent + "Fix bug", "", ['M', '\t'] + "src/file.go"])
         == Ok(Entry(Some("abc123"), Some("Jane Doe"), Some("Fix bug\n"), {"src/file.go"}))
  {
    var c := Change('M', "src/file.go");
    SingleChangeRecord("abc123", "Jane Doe", "jane@x.com> 1234567890 +0000", "Fix bug", c);
    assert "Fix bug" + "\n" == "Fix bug\n";
    assert [c.tag, '\t'] + c.path == ['M', '\t'] + "src/file.go";
  }
}

=== FILE: git_scm.dfy ===
/**
  The poll and checkout decisions of `GitSCM`. The git primitives belong to a
  wrapper that is not part of this model: its queries (is there a repository,
  are there submodules, what does a branch resolve to, does a merge succeed)
  are answers supplied in a `Repo`, and its commands are recorded, in order,
  as the operations of a trace. Poll and checkout are then pure functions
  from configuration, project state and those answers to a boolean, a trace
  and the project state afterwards.
 */
module GitScm {
  import opened JavaString
  import opened Seqs

  type Hash = string

  /** The configuration a project stores: remote, branch, clean flag, merge flag, merge target. */
  datatype Config = Config(source: string, branch: string, clean: bool, doMerge: bool, mergeTarget: string)

  /** A git command issued to the wrapper. */
  datatype GitOp =
    | Clone(source: string)
    | SubmoduleInit
    | Fetch
    | Checkout(branch: string)
    | SubmoduleUpdate
    | Merge(branch: string)
    | Clean
    | RevParse(branch: string)
    | Log(from: Hash, to: Hash)

  /**
    The wrapper's answers during one call: whether a repository exists in the
    workspace, whether submodules are declared after a clone and after a
    checkout, what each branch resolves to (a missing key is a `null` hash),
    and whether a merge goes through cleanly.
   */
  datatype Repo = Repo(
    hasRepo: bool,
    modulesAfterClone: bool,
    modulesAfterCheckout: bool,
    refs: map<string, Hash>,
    mergeSucceeds: bool)

  /** `git.revParse(b)`. */
  function ResolveRef(repo: Repo, b: string): Option<Hash> {
    if b in repo.refs then Some(repo.refs[b]) else None
  }

  /** The per-project property holding the last hash built. */
  datatype LastHashProperty = LastHashProperty(lastHashBuilt: Option<Hash>)

  /** What the model needs of a project: whether it is building and its last-hash property, if any. */
  datatype Project = Project(building: bool, lastProperty: Option<LastHashProperty>)

  /** A build's parameters, with their substitution service left uninterpreted. */
  datatype Parameters = Parameters(substitute: string -> string)

  /** A build: its project and, when it has any, its parameters. */
  datatype Build = Build(project: Project, parameters: Option<Parameters>)

  /** What `pollChanges` or `checkout` returns, the git commands it issued, and the project afterwards. */
  datatype Outcome = Outcome(result: bool, trace: seq<GitOp>, project: Project)

  /** The last hash stored for a project; `None` when there is no property or its hash is `null`. */
  function StoredHash(p: Project): Option<Hash> {
    if p.lastProperty.Some? then p.lastProperty.value.lastHashBuilt else None
  }

  // ----- Trace vocabulary -----

  /** Some merge is attempted in `t`. */
  predicate MergeAttempted(t: seq<GitOp>) {
    exists op :: op in t && op.Merge?
  }

  /** Some change log is written in `t`. */
  predicate LogWritten(t: seq<GitOp>) {
    exists op :: op in t && op.Log?
  }

  /** The branch the last checkout in `t` switched to, if any. */
  function Head(t: seq<GitOp>): Option<string>
    decreases |t|
  {
    if |t| == 0 then None
    else if t[|t| - 1].Checkout? then Some(t[|t| - 1].branch)
    else Head(t[..|t| - 1])
  }

  /** Every checkout and merge in `t` comes before every clean. */
  predicate CleanAfterUpdates(t: seq<GitOp>) {
    forall i, j :: 0 <= i < |t| && 0 <= j < |t| && t[i] == Clean && (t[j].Checkout? || t[j].Merge?) ==> j < i
  }

  /** Only the clone-and-fetch commands appear in `t`. */
  predicate OnlySyncOps(t: seq<GitOp>) {
    forall op :: op in t ==> op.Clone? || op.SubmoduleInit? || op.Fetch?
  }

  /** A command that changes what is checked out: a checkout, a submodule update or a merge. */
  predicate UpdatesWorkspace(op: GitOp) {
    op.Checkout? || op.SubmoduleUpdate? || op.Merge?
  }

  /** A command of the final steps: a clean, a tip lookup or a change log. */
  predicate Finishes(op: GitOp) {
    op.Clean? || op.RevParse? || op.Log?
  }

  /** No command that changes the workspace follows a command of the final steps. */
  predicate FinishesLast(t: seq<GitOp>) {
    forall i, j :: 0 <= i < j < |t| && Finishes(t[i]) ==> !UpdatesWorkspace(t[j])
  }

  // ----- The operations -----

  /**
    `ensureClonedAndFetched`: clone (and initialise declared submodules) only
    when no repository exists, then always fetch, as the last step.
   */
  function EnsureClonedAndFetched(cfg: Config, repo: Repo): (t: seq<GitOp>)
    ensures |t| > 0 && t[|t| - 1].Fetch? && Fetch !in t[..|t| - 1]
    ensures OnlySyncOps(t)
    ensures Clone(cfg.source) in t <==> !repo.hasRepo
    ensures forall i :: 0 <= i < |t| && t[i].Clone? ==> i == 0 && t[i].source == cfg.source
    ensures SubmoduleInit in t <==> !repo.hasRepo && repo.modulesAfterClone
    ensures forall i :: 0 <= i < |t| && t[i].SubmoduleInit? ==> i == 1 && t[0].Clone?
  {
    if repo.hasRepo then [Fetch]
    else if repo.modulesAfterClone then [Clone(cfg.source), SubmoduleInit, Fetch]
    else [Clone(cfg.source), Fetch]
  }

  /**
    `getOrCreateLastProperty`: an existing property is returned and the project
    left alone; otherwise a property with a `null` hash is added and returned.
   */
  function GetOrCreateLastProperty(p: Project): (r: (LastHashProperty, Project))
    ensures r.1.lastProperty == Some(r.0)
    ensures r.1.building == p.building
    ensures p.lastProperty.Some? ==> r.0 == p.lastProperty.value && r.1 == p
    ensures p.lastProperty.None? ==> r.0.lastHashBuilt == None
    ensures r.0.lastHashBuilt == StoredHash(p) == StoredHash(r.1)
  {
    match p.lastProperty
    case Some(prop) => (prop, p)
    case None =>
      var prop := LastHashProperty(None);
      (prop, p.(lastProperty := Some(prop)))
  }

  /** Parameter expansion of a configured branch name: the identity for a build without parameters. */
  function Expand(b: Build, s: string): string {
    match b.parameters
    case None => s
    case Some(params) => params.substitute(s)
  }

  /** `getExpandedBranch`. */
  function ExpandedBranch(cfg: Config, b: Build): string {
    Expand(b, cfg.branch)
  }

  /** `getExpandedMergeTarget`. */
  function ExpandedMergeTarget(cfg: Config, b: Build): string {
    Expand(b, cfg.mergeTarget)
  }

  /** The `hasGitModules()` check after a checkout. */
  function SubmoduleSync(repo: Repo): seq<GitOp> {
    if repo.modulesAfterCheckout then [SubmoduleUpdate] else []
  }

  /** `tipHash == null ? false : !tipHash.equals(lastHash)`. */
  function TipIsNew(tip: Option<Hash>, last: Option<Hash>): bool {
    if tip.None? then false
    else !(last.Some? && tip.value == last.value)
  }

  /**
    `pollChanges`: no git work at all while the project is building;
    otherwise clone-and-fetch, resolve the configured branch as written
    (not parameter-expanded), fetch or create the last-hash property, and
    report whether the tip is new.
   */
  function PollChanges(cfg: Config, project: Project, repo: Repo): (o: Outcome)
    ensures project.building ==> o == Outcome(false, [], project)
    ensures !project.building ==>
      (o.result <==> ResolveRef(repo, cfg.branch).Some? && ResolveRef(repo, cfg.branch) != StoredHash(project))
    ensures StoredHash(o.project) == StoredHash(project) && o.project.building == project.building
    ensures !project.building ==> o.project.lastProperty.Some?
    ensures !project.building ==>
      o.trace == EnsureClonedAndFetched(cfg, repo) + [RevParse(cfg.branch)]
    ensures forall op :: op in o.trace ==> op.Clone? || op.SubmoduleInit? || op.Fetch? || op.RevParse?
  {
    if project.building then Outcome(false, [], project)
    else
      var synced := EnsureClonedAndFetched(cfg, repo);
      var tip := ResolveRef(repo, cfg.branch);
      var (prop, project') := GetOrCreateLastProperty(project);
      Outcome(TipIsNew(tip, prop.lastHashBuilt), synced + [RevParse(cfg.branch)], project')
  }

  /** The build takes the merge path: merging is on and the expanded branches differ. */
  predicate TakesMergePath(cfg: Config, b: Build) {
    cfg.doMerge && ExpandedBranch(cfg, b) != ExpandedMergeTarget(cfg, b)
  }

  /** The end of a checkout that got past the merge: optional clean, then the change log when both hashes are known. */
  function FinishCheckout(cfg: Config, b: Build, repo: Repo, t: seq<GitOp>): Outcome {
    var cleaned := t + (if cfg.clean then [Clean] else []);
    var (prop, project') := GetOrCreateLastProperty(b.project);
    var last := prop.lastHashBuilt;
    var branch := ExpandedBranch(cfg, b);
    var tip := ResolveRef(repo, branch);
    var logged := cleaned + [RevParse(branch)] + (if last.Some? && tip.Some? then [Log(last.value, tip.value)] else []);
    Outcome(true, logged, project')
  }

  /**
    `checkout`: clone-and-fetch, then either check out the merge target and
    merge the branch into it (a failed merge ends the call with `false`), or
    check out the branch; then clean when configured and write the change log
    when both the last and the tip hash are known.
   */
  function CheckoutBuild(cfg: Config, b: Build, repo: Repo): (o: Outcome)
    ensures o.result <==> !(TakesMergePath(cfg, b) && !repo.mergeSucceeds)
    ensures StoredHash(o.project) == StoredHash(b.project) && o.project.building == b.project.building
    ensures o.project == (if o.result then GetOrCreateLastProperty(b.project).1 else b.project)
  {
    var synced := EnsureClonedAndFetched(cfg, repo);
    var branch := ExpandedBranch(cfg, b);
    var target := ExpandedMergeTarget(cfg, b);
    if cfg.doMerge && branch != target then
      var merged := synced + [Checkout(target)] + SubmoduleSync(repo) + [Merge(branch)];
      if !repo.mergeSucceeds then Outcome(false, merged, b.project)
      else FinishCheckout(cfg, b, repo, merged)
    else
      FinishCheckout(cfg, b, repo, synced + [Checkout(branch)] + SubmoduleSync(repo))
  }

  // ----- Properties of checkout and poll -----

  /** The commands of a checkout between the sync prefix and the final steps: checkout (and merge). */
  function UpdateOps(cfg: Config, b: Build, repo: Repo): seq<GitOp> {
    if TakesMergePath(cfg, b) then [Checkout(ExpandedMergeTarget(cfg, b))] + SubmoduleSync(repo) + [Merge(ExpandedBranch(cfg, b))]
    else [Checkout(ExpandedBranch(cfg, b))] + SubmoduleSync(repo)
  }

  /** The final steps of a checkout that got past the merge: optional clean, tip lookup, optional change log. */
  function TailOps(cfg: Config, b: Build, repo: Repo): seq<GitOp> {
    var last := StoredHash(b.project);
    var tip := ResolveRef(repo, ExpandedBranch(cfg, b));
    (if cfg.clean then [Clean] else [])
      + [RevParse(ExpandedBranch(cfg, b))]
      + (if last.Some? && tip.Some? then [Log(last.value, tip.value)] else [])
  }

  /**
    A checkout is the sync commands, then the checkout (and merge) commands,
    then, unless the merge failed, the final steps.
   */
  lemma CheckoutShape(cfg: Config, b: Build, repo: Repo)
    ensures var o := CheckoutBuild(cfg, b, repo);
            o.trace == EnsureClonedAndFetched(cfg, repo) + UpdateOps(cfg, b, repo)
                       + (if o.result then TailOps(cfg, b, repo) else [])
  {
    var sync := EnsureClonedAndFetched(cfg, repo);
    var upd := UpdateOps(cfg, b, repo);
    if TakesMergePath(cfg, b) {
      assert sync + [Checkout(ExpandedMergeTarget(cfg, b))] + SubmoduleSync(repo) + [Merge(ExpandedBranch(cfg, b))] == sync + upd;
    } else {
      assert sync + [Checkout(ExpandedBranch(cfg, b))] + SubmoduleSync(repo) == sync + upd;
    }
  }

  /**
    A checkout starts with the clone-and-fetch commands, issues no checkout,
    submodule update or merge once a clean, lookup or change log has been
    issued, and looks up the tip of the expanded branch exactly when it
    succeeds.
   */
  lemma CheckoutOrder(cfg: Config, b: Build, repo: Repo)
    ensures var o := CheckoutBuild(cfg, b, repo);
            && EnsureClonedAndFetched(cfg, repo) <= o.trace
            && FinishesLast(o.trace)
            && (RevParse(ExpandedBranch(cfg, b)) in o.trace <==> o.result)
  {
    CheckoutShape(cfg, b, repo);
    UpdateOpsKinds(cfg, b, repo);
    TailOpsKinds(cfg, b, repo);
    var o := CheckoutBuild(cfg, b, repo);
    var sync := EnsureClonedAndFetched(cfg, repo);
    var upd := UpdateOps(cfg, b, repo);
    var tail := if o.result then TailOps(cfg, b, repo) else [];
    FinishOrderOfShape(sync, upd, tail);
    Assoc(sync, upd, tail);
  }

  /** In `sync + upd + tail`, with final steps only in `tail` and workspace changes only before it, the final steps come last. */
  lemma FinishOrderOfShape(sync: seq<GitOp>, upd: seq<GitOp>, tail: seq<GitOp>)
    requires forall op :: op in sync + upd ==> !Finishes(op)
    requires forall op :: op in tail ==> !UpdatesWorkspace(op)
    ensures FinishesLast(sync + upd + tail)
  {
    var t := sync + upd + tail;
    var n := |sync + upd|;
    assert t == (sync + upd) + tail;
    assert forall k :: 0 <= k < n ==> !Finishes(t[k]) by {
      assert forall k :: 0 <= k < n ==> t[k] == (sync + upd)[k] && (sync + upd)[k] in sync + upd;
    }
    assert forall k :: n <= k < |t| ==> !UpdatesWorkspace(t[k]) by {
      assert forall k :: n <= k < |t| ==> t[k] == tail[k - n] && tail[k - n] in tail;
    }
  }

  /**
    A checkout switches the workspace once, right after clone-and-fetch: to
    the merge target on the merge path and to the expanded branch otherwise.
    Submodules are updated exactly when the checked-out tree declares them,
    right after that checkout, and the one merge, if any, comes after both.
   */
  lemma CheckoutUpdatesWorkspace(cfg: Config, b: Build, repo: Repo)
    ensures var o := CheckoutBuild(cfg, b, repo);
            var n := |EnsureClonedAndFetched(cfg, repo)|;
            && n < |o.trace|
            && o.trace[n] == Checkout(if TakesMergePath(cfg, b) then ExpandedMergeTarget(cfg, b) else ExpandedBranch(cfg, b))
            && (forall i :: 0 <= i < |o.trace| && o.trace[i].Checkout? ==> i == n)
            && (SubmoduleUpdate in o.trace <==> repo.modulesAfterCheckout)
            && (forall i :: 0 <= i < |o.trace| && o.trace[i] == SubmoduleUpdate ==> i == n + 1)
            && (forall i, j :: 0 <= i < |o.trace| && 0 <= j < |o.trace| && o.trace[j].Merge? && (o.trace[i].Checkout? || o.trace[i] == SubmoduleUpdate) ==> i < j)
            && (forall i, j :: 0 <= i < |o.trace| && 0 <= j < |o.trace| && o.trace[i].Merge? && o.trace[j].Merge? ==> i == j)
  {
    CheckoutShape(cfg, b, repo);
    UpdateOpsLayout(cfg, b, repo);
    TailOpsKinds(cfg, b, repo);
    var o := CheckoutBuild(cfg, b, repo);
    var tail := if o.result then TailOps(cfg, b, repo) else [];
    WorkspaceOfShape(EnsureClonedAndFetched(cfg, repo), UpdateOps(cfg, b, repo), tail);
  }

  /** Where each command sits in the checkout/merge part. */
  lemma UpdateOpsLayout(cfg: Config, b: Build, repo: Repo)
    ensures var u := UpdateOps(cfg, b, repo);
            && |u| > 0
            && u[0] == Checkout(if TakesMergePath(cfg, b) then ExpandedMergeTarget(cfg, b) else ExpandedBranch(cfg, b))
            && (forall i :: 0 < i < |u| ==> u[i] == SubmoduleUpdate || u[i].Merge?)
            && (forall i :: 0 <= i < |u| && u[i] == SubmoduleUpdate ==> i == 1)
            && (forall i :: 0 <= i < |u| && u[i].Merge? ==> i == |u| - 1)
            && (SubmoduleUpdate in u <==> repo.modulesAfterCheckout)
  {
  }

  /**
    In `sync + u + tail`, where `u` is a checkout, an optional submodule update
    at index 1 and an optional merge at its end, and `sync` and `tail` hold no
    workspace change: the checkout is the only one, the update follows it, and
    the merge follows both.
   */
  lemma WorkspaceOfShape(sync: seq<GitOp>, u: seq<GitOp>, tail: seq<GitOp>)
    requires OnlySyncOps(sync)
    requires forall op :: op in tail ==> Finishes(op)
    requires |u| > 0 && u[0].Checkout?
    requires forall i :: 0 < i < |u| ==> u[i] == SubmoduleUpdate || u[i].Merge?
    requires forall i :: 0 <= i < |u| && u[i] == SubmoduleUpdate ==> i == 1
    requires forall i :: 0 <= i < |u| && u[i].Merge? ==> i == |u| - 1
    ensures var t := sync + u + tail;
            var n := |sync|;
            && n < |t| && t[n] == u[0]
            && (forall i :: 0 <= i < |t| && t[i].Checkout? ==> i == n)
            && (SubmoduleUpdate in t <==> SubmoduleUpdate in u)
            && (forall i :: 0 <= i < |t| && t[i] == SubmoduleUpdate ==> i == n + 1)
            && (forall i :: 0 <= i < |t| && t[i].Merge? ==> i == n + |u| - 1)
  {
    var t := sync + u + tail;
    var n := |sync|;
    IndexAppend(sync, u);
    IndexAppend(sync + u, tail);
    assert forall k :: 0 <= k < n ==> t[k] == sync[k] && sync[k] in sync;
    assert forall k :: n + |u| <= k < |t| ==> t[k] == tail[k - n - |u|] && tail[k - n - |u|] in tail;
    assert forall k :: n <= k < n + |u| ==> t[k] == u[k - n];
  }

  /** Which commands can occur in the checkout/merge part. */
  lemma UpdateOpsKinds(cfg: Config, b: Build, repo: Repo)
    ensures var upd := UpdateOps(cfg, b, repo);
            && |upd| > 0 && upd[0].Checkout?
            && (forall op :: op in upd ==> op.Checkout? || op == SubmoduleUpdate || op.Merge?)
            && (forall i :: 0 < i < |upd| ==> !upd[i].Checkout?)
            && (forall op :: op in upd && op.Merge? ==> op == Merge(ExpandedBranch(cfg, b)))
            && ((exists op :: op in upd && op.Merge?) <==> TakesMergePath(cfg, b))
            && upd[0] == Checkout(if TakesMergePath(cfg, b) then ExpandedMergeTarget(cfg, b) else ExpandedBranch(cfg, b))
  {
    var upd := UpdateOps(cfg, b, repo);
    if TakesMergePath(cfg, b) {
      assert upd[|upd| - 1] in upd;
    }
  }

  /** Which commands can occur in the final steps. */
  lemma TailOpsKinds(cfg: Config, b: Build, repo: Repo)
    ensures var tail := TailOps(cfg, b, repo);
            var last := StoredHash(b.project);
            var tip := ResolveRef(repo, ExpandedBranch(cfg, b));
            && (forall op :: op in tail ==> op == Clean || op.RevParse? || op.Log?)
            && (Clean in tail <==> cfg.clean)
            && (cfg.clean ==> tail[0] == Clean)
            && (forall i :: 0 < i < |tail| ==> tail[i] != Clean)
            && RevParse(ExpandedBranch(cfg, b)) in tail
            && ((exists op :: op in tail && op.Log?) <==> last.Some? && tip.Some?)
            && (last.Some? && tip.Some? ==> tail[|tail| - 1] == Log(last.value, tip.value))
  {
    var tail := TailOps(cfg, b, repo);
    var last := StoredHash(b.project);
    var tip := ResolveRef(repo, ExpandedBranch(cfg, b));
    if last.Some? && tip.Some? {
      assert tail[|tail| - 1] in tail;
    }
  }

  /**
    A merge that does not go through ends the checkout: nothing is cleaned,
    no change log is written, the last-hash property is not created, and the
    failed merge is the last command issued.
   */
  lemma MergeFailureStops(cfg: Config, b: Build, repo: Repo)
    requires TakesMergePath(cfg, b) && !repo.mergeSucceeds
    ensures var o := CheckoutBuild(cfg, b, repo);
            && !o.result
            && o.project == b.project
            && Clean !in o.trace
            && !LogWritten(o.trace)
            && o.trace[|o.trace| - 1] == Merge(ExpandedBranch(cfg, b))
  {
    CheckoutShape(cfg, b, repo);
    UpdateOpsKinds(cfg, b, repo);
  }

  /** A merge is attempted exactly on the merge path, and it merges the expanded branch. */
  lemma MergeOnlyOnMergePath(cfg: Config, b: Build, repo: Repo)
    ensures var o := CheckoutBuild(cfg, b, repo);
            && (MergeAttempted(o.trace) <==> TakesMergePath(cfg, b))
            && forall op :: op in o.trace && op.Merge? ==> op == Merge(ExpandedBranch(cfg, b))
  {
    CheckoutShape(cfg, b, repo);
    UpdateOpsKinds(cfg, b, repo);
    TailOpsKinds(cfg, b, repo);
  }

  /** The last branch checked out is the expanded merge target on the merge path and the expanded branch otherwise. */
  lemma HeadAfterCheckout(cfg: Config, b: Build, repo: Repo)
    ensures Head(CheckoutBuild(cfg, b, repo).trace) ==
            Some(if TakesMergePath(cfg, b) then ExpandedMergeTarget(cfg, b) else ExpandedBranch(cfg, b))
  {
    CheckoutShape(cfg, b, repo);
    UpdateOpsKinds(cfg, b, repo);
    TailOpsKinds(cfg, b, repo);
    var o := CheckoutBuild(cfg, b, repo);
    HeadOfShape(EnsureClonedAndFetched(cfg, repo), UpdateOps(cfg, b, repo), if o.result then TailOps(cfg, b, repo) else []);
  }

  /** In `sync + upd + tail`, when only `upd[0]` is a checkout, it decides the head. */
  lemma HeadOfShape(sync: seq<GitOp>, upd: seq<GitOp>, tail: seq<GitOp>)
    requires |upd| > 0 && upd[0].Checkout?
    requires forall i :: 0 < i < |upd| ==> !upd[i].Checkout?
    requires forall op :: op in tail ==> !op.Checkout?
    ensures Head(sync + upd + tail) == Some(upd[0].branch)
  {
    var after := upd[1..] + tail;
    assert sync + upd + tail == (sync + [upd[0]]) + after by {
      assert upd == [upd[0]] + upd[1..];
    }
    assert forall i :: 0 <= i < |after| ==> !after[i].Checkout? by {
      assert forall i :: 0 <= i < |upd| - 1 ==> after[i] == upd[i + 1];
      assert forall i :: |upd| - 1 <= i < |after| ==> after[i] == tail[i - (|upd| - 1)];
    }
    HeadSkipsTail(sync + [upd[0]], after);
  }

  /** `Head` ignores a suffix without checkouts. */
  lemma {:induction false} HeadSkipsTail(t: seq<GitOp>, u: seq<GitOp>)
    requires |t| > 0 && t[|t| - 1].Checkout?
    requires forall i :: 0 <= i < |u| ==> !u[i].Checkout?
    ensures Head(t + u) == Some(t[|t| - 1].branch)
    decreases |u|
  {
    if |u| == 0 {
      assert t + u == t;
    } else {
      var v := u[..|u| - 1];
      assert (t + u)[..|t + u| - 1] == t + v;
      HeadSkipsTail(t, v);
    }
  }

  /**
    The workspace is cleaned exactly when cleaning is configured and the
    checkout succeeds, and only after every checkout and merge.
   */
  lemma CleanWhenConfigured(cfg: Config, b: Build, repo: Repo)
    ensures var o := CheckoutBuild(cfg, b, repo);
            && (Clean in o.trace <==> cfg.clean && o.result)
            && CleanAfterUpdates(o.trace)
  {
    CheckoutShape(cfg, b, repo);
    UpdateOpsKinds(cfg, b, repo);
    TailOpsKinds(cfg, b, repo);
    var o := CheckoutBuild(cfg, b, repo);
    CleanOrderOfShape(EnsureClonedAndFetched(cfg, repo), UpdateOps(cfg, b, repo), if o.result then TailOps(cfg, b, repo) else []);
  }

  /** In `sync + upd + tail`, with cleans only in `tail` and checkouts and merges only before it, cleans come last. */
  lemma CleanOrderOfShape(sync: seq<GitOp>, upd: seq<GitOp>, tail: seq<GitOp>)
    requires forall op :: op in sync + upd ==> op != Clean
    requires forall op :: op in tail ==> !op.Checkout? && !op.Merge?
    ensures CleanAfterUpdates(sync + upd + tail)
  {
    var t := sync + upd + tail;
    var n := |sync + upd|;
    assert t == (sync + upd) + tail;
    assert forall k :: 0 <= k < n ==> t[k] != Clean by {
      assert forall k :: 0 <= k < n ==> t[k] == (sync + upd)[k] && (sync + upd)[k] in sync + upd;
    }
    assert forall k :: n <= k < |t| ==> !t[k].Checkout? && !t[k].Merge? by {
      assert forall k :: n <= k < |t| ==> t[k] == tail[k - n] && tail[k - n] in tail;
    }
  }

  /**
    A change log is written exactly when the checkout succeeds and both the
    stored hash and the tip of the expanded branch are known; it then runs
    from the stored hash to the tip and is the last command.
   */
  lemma LogWhenBothHashesKnown(cfg: Config, b: Build, repo: Repo)
    ensures var o := CheckoutBuild(cfg, b, repo);
            var last := StoredHash(b.project);
            var tip := ResolveRef(repo, ExpandedBranch(cfg, b));
            && (LogWritten(o.trace) <==> o.result && last.Some? && tip.Some?)
            && (LogWritten(o.trace) ==> o.trace[|o.trace| - 1] == Log(last.value, tip.value))
  {
    CheckoutShape(cfg, b, repo);
    UpdateOpsKinds(cfg, b, repo);
    TailOpsKinds(cfg, b, repo);
  }

  /** Merging a branch onto itself is skipped: the checkout behaves as if merging were off. */
  lemma SelfMergeIsPlainCheckout(cfg: Config, b: Build, repo: Repo)
    requires ExpandedBranch(cfg, b) == ExpandedMergeTarget(cfg, b)
    ensures CheckoutBuild(cfg, b, repo) == CheckoutBuild(cfg.(doMerge := false), b, repo)
  {
    var cfg' := cfg.(doMerge := false);
    assert ExpandedBranch(cfg', b) == ExpandedBranch(cfg, b);
    assert EnsureClonedAndFetched(cfg', repo) == EnsureClonedAndFetched(cfg, repo);
  }

  /**
    Whether the workspace already held a repository changes only the sync
    prefix: a second checkout over the clone issues just a fetch before the
    same commands, and reaches the same result and project.
   */
  lemma CheckoutAfterClone(cfg: Config, b: Build, repo: Repo)
    requires !repo.hasRepo
    ensures var first := CheckoutBuild(cfg, b, repo);
            var again := CheckoutBuild(cfg, b, repo.(hasRepo := true));
            var n := |EnsureClonedAndFetched(cfg, repo)|;
            && n <= |first.trace|
            && again.trace == [Fetch] + first.trace[n..]
            && again.result == first.result
            && again.project == first.project
  {
    var repo' := repo.(hasRepo := true);
    var first := CheckoutBuild(cfg, b, repo);
    var again := CheckoutBuild(cfg, b, repo');
    CheckoutShape(cfg, b, repo);
    CheckoutShape(cfg, b, repo');
    assert again.result == first.result;
    var sync := EnsureClonedAndFetched(cfg, repo);
    var upd := UpdateOps(cfg, b, repo);
    var tail := if first.result then TailOps(cfg, b, repo) else [];
    assert EnsureClonedAndFetched(cfg, repo') == [Fetch];
    assert SubmoduleSync(repo') == SubmoduleSync(repo);
    assert UpdateOps(cfg, b, repo') == upd;
    assert ResolveRef(repo', ExpandedBranch(cfg, b)) == ResolveRef(repo, ExpandedBranch(cfg, b));
    assert TailOps(cfg, b, repo') == TailOps(cfg, b, repo);
    var rest := upd + tail;
    assert again.trace == [Fetch] + upd + tail;
    Assoc([Fetch], upd, tail);
    assert again.trace == [Fetch] + rest;
    assert first.trace == sync + upd + tail;
    Assoc(sync, upd, tail);
    assert first.trace == sync + rest;
    assert first.trace[|sync|..] == rest;
  }

  /**
    For a build without parameters poll and checkout look up the same branch,
    and when the poll saw nothing new, a checkout of the same repository
    either writes no change log or writes an empty range (from a hash to itself).
   */
  lemma PollAgreesWithCheckout(cfg: Config, b: Build, repo: Repo)
    requires b.parameters.None? && !b.project.building
    ensures var p := PollChanges(cfg, b.project, repo);
            var o := CheckoutBuild(cfg, b, repo);
            && RevParse(cfg.branch) in p.trace
            && (o.result ==> RevParse(cfg.branch) in o.trace)
            && (!p.result && LogWritten(o.trace) ==> o.trace[|o.trace| - 1].from == o.trace[|o.trace| - 1].to)
  {
    CheckoutShape(cfg, b, repo);
    TailOpsKinds(cfg, b, repo);
    LogWhenBothHashesKnown(cfg, b, repo);
  }

  /**
    Without parameters both names are used as configured; with parameters both
    go through the same substitution, so equal configured names stay equal.
   */
  lemma ExpansionOfNames(cfg: Config, b: Build)
    ensures b.parameters.None? ==> ExpandedBranch(cfg, b) == cfg.branch && ExpandedMergeTarget(cfg, b) == cfg.mergeTarget
    ensures cfg.branch == cfg.mergeTarget ==> ExpandedBranch(cfg, b) == ExpandedMergeTarget(cfg, b)
  {
  }

  /** A merge onto a branch configured under its own name never happens, whatever the parameters. */
  lemma SameNameNeverMerges(cfg: Config, b: Build, repo: Repo)
    requires cfg.branch == cfg.mergeTarget
    ensures !MergeAttempted(CheckoutBuild(cfg, b, repo).trace)
    ensures CheckoutBuild(cfg, b, repo).result
  {
    ExpansionOfNames(cfg, b);
    MergeOnlyOnMergePath(cfg, b, repo);
  }

  /** Fetching or creating the last-hash property a second time changes nothing further. */
  lemma GetOrCreateIdempotent(p: Project)
    ensures var (prop, p') := GetOrCreateLastProperty(p);
            GetOrCreateLastProperty(p') == (prop, p')
  {
  }
}

=== FILE: java_string.dfy ===
/**
  The few pieces of java.lang.String (and of Java's `null`) that the commit
  parser leans on, with their Java semantics written out: `startsWith`,
  `indexOf`, `substring` (which throws on bad bounds) and `split` with a
  one-character separator (which drops trailing empty strings).
 */
module JavaString {

  /** A reference that Java may leave `null`. */
  datatype Option<+T> = None | Some(value: T)

  /** `s.startsWith(prefix)`. */
  predicate StartsWith(s: string, prefix: string) {
    |prefix| <= |s| && s[..|prefix|] == prefix
  }

  /** `pat` occurs in `s` at index `j`. */
  predicate OccursAt(s: string, pat: string, j: int) {
    0 <= j && j + |pat| <= |s| && s[j..j + |pat|] == pat
  }

  /** `s.indexOf(pat)`: the first index at which `pat` occurs, or -1 when it does not occur. */
  function IndexOf(s: string, pat: string): (k: int)
    ensures k == -1 || OccursAt(s, pat, k)
    ensures forall j :: 0 <= j && (k == -1 || j < k) ==> !OccursAt(s, pat, j)
  {
    IndexFrom(s, pat, 0)
  }

  /** The first occurrence of `pat` in `s` at an index no smaller than `i`, or -1. */
  function IndexFrom(s: string, pat: string, i: nat): (k: int)
    ensures k == -1 || (i <= k && OccursAt(s, pat, k))
    ensures forall j :: i <= j && (k == -1 || j < k) ==> !OccursAt(s, pat, j)
    decreases |s| - i
  {
    if i + |pat| > |s| then -1
    else if s[i..i + |pat|] == pat then i
    else IndexFrom(s, pat, i + 1)
  }

  /**
    `s.substring(b, e)`; `None` stands for the StringIndexOutOfBoundsException
    Java throws when `b < 0`, `e > s.length()` or `b > e`.
   */
  function Substring(s: string, b: int, e: int): (r: Option<string>)
    ensures r.Some? <==> 0 <= b <= e <= |s|
    ensures r.Some? ==> |r.value| == e - b && forall i :: 0 <= i < |r.value| ==> r.value[i] == s[b + i]
  {
    if 0 <= b <= e <= |s| then Some(s[b..e]) else None
  }

  /** The pieces of `s` between successive occurrences of `sep`, empty pieces kept. */
  function Pieces(s: string, sep: char): (ps: seq<string>)
    ensures |ps| >= 1
    ensures forall i :: 0 <= i < |ps| ==> sep !in ps[i]
    ensures ps[0] <= s && (|ps[0]| == |s| || s[|ps[0]|] == sep)
    decreases |s|
  {
    if |s| == 0 then [""]
    else if s[0] == sep then [""] + Pieces(s[1..], sep)
    else
      var rest := Pieces(s[1..], sep);
      [[s[0]] + rest[0]] + rest[1..]
  }

  /** The pieces glued back together with `sep` between them. */
  function Join(ps: seq<string>, sep: char): string
    requires |ps| >= 1
  {
    if |ps| == 1 then ps[0] else ps[0] + [sep] + Join(ps[1..], sep)
  }

  /** Splitting and joining on the same separator gives back the original string. */
  lemma {:induction false} JoinPieces(s: string, sep: char)
    ensures Join(Pieces(s, sep), sep) == s
    decreases |s|
  {
    if |s| == 0 {
    } else if s[0] == sep {
      JoinPieces(s[1..], sep);
      var rest := Pieces(s[1..], sep);
      assert Pieces(s, sep) == [""] + rest;
      assert ([""] + rest)[1..] == rest;
      assert s == [s[0]] + s[1..];
    } else {
      JoinPieces(s[1..], sep);
      var rest := Pieces(s[1..], sep);
      var ps := Pieces(s, sep);
      assert ps == [[s[0]] + rest[0]] + rest[1..];
      if |rest| == 1 {
        assert Join(rest, sep) == rest[0];
        assert s == [s[0]] + s[1..];
      } else {
        assert Join(rest, sep) == rest[0] + [sep] + Join(rest[1..], sep);
        assert ps[1..] == rest[1..];
        assert s == [s[0]] + s[1..];
      }
    }
  }

  /** The piece list of `w + sep + t`, when `w` holds no `sep`, is `w` followed by the pieces of `t`. */
  lemma {:induction false} PiecesAfterWord(w: string, sep: char, t: string)
    requires sep !in w
    ensures Pieces(w + [sep] + t, sep) == [w] + Pieces(t, sep)
    decreases |w|
  {
    var s := w + [sep] + t;
    if |w| == 0 {
      assert s == [sep] + t;
      assert s[1..] == t;
    } else {
      assert s[0] == w[0];
      assert s[1..] == w[1..] + [sep] + t;
      PiecesAfterWord(w[1..], sep, t);
      assert [w[0]] + w[1..] == w;
    }
  }

  /** Every piece is empty exactly when the string consists of separators only. */
  lemma {:induction false} PiecesAllEmpty(s: string, sep: char)
    ensures (forall i :: 0 <= i < |Pieces(s, sep)| ==> Pieces(s, sep)[i] == "") <==>
            (forall i :: 0 <= i < |s| ==> s[i] == sep)
    decreases |s|
  {
    var ps := Pieces(s, sep);
    if |s| == 0 {
    } else if s[0] == sep {
      PiecesAllEmpty(s[1..], sep);
      var rest := Pieces(s[1..], sep);
      var t := s[1..];
      assert ps == [""] + rest;
      assert forall i :: 1 <= i < |ps| ==> ps[i] == rest[i - 1];
      assert forall i :: 1 <= i < |s| ==> s[i] == t[i - 1];
      if forall i :: 0 <= i < |ps| ==> ps[i] == "" {
        assert forall i :: 0 <= i < |rest| ==> rest[i] == ps[i + 1];
        assert forall i :: 0 <= i < |t| ==> t[i] == sep;
        assert forall i :: 0 <= i < |s| ==> s[i] == sep;
      }
      if forall i :: 0 <= i < |s| ==> s[i] == sep {
        assert forall i :: 0 <= i < |t| ==> t[i] == s[i + 1];
        assert forall i :: 0 <= i < |rest| ==> rest[i] == "";
      }
    } else {
      FirstPieceNonEmpty(s, sep);
      assert ps[0] != "" && s[0] != sep;
    }
  }

  /** A string that does not start with the separator has a non-empty first piece. */
  lemma FirstPieceNonEmpty(s: string, sep: char)
    requires |s| > 0 && s[0] != sep
    ensures |Pieces(s, sep)[0]| > 0
  {
    var rest := Pieces(s[1..], sep);
    assert |Pieces(s, sep)[0]| == 1 + |rest[0]|;
  }

  /** Java drops the trailing empty strings of a split when no limit is given. */
  function DropTrailingEmpty(ps: seq<string>): (r: seq<string>)
    ensures r <= ps
    ensures |r| == 0 || r[|r| - 1] != ""
    ensures forall i :: |r| <= i < |ps| ==> ps[i] == ""
  {
    if |ps| > 0 && ps[|ps| - 1] == "" then DropTrailingEmpty(ps[..|ps| - 1]) else ps
  }

  /**
    `s.split(String.valueOf(sep))`: no occurrence yields the one-element array
    holding `s`; otherwise the pieces with trailing empty strings dropped.
   */
  function Split(s: string, sep: char): seq<string> {
    if sep !in s then [s] else DropTrailingEmpty(Pieces(s, sep))
  }

  /** `a[i]`; `None` stands for an ArrayIndexOutOfBoundsException. */
  function ElementAt(a: seq<string>, i: nat): (r: Option<string>)
    ensures r.Some? <==> i < |a|
    ensures r.Some? ==> r.value == a[i]
  {
    if i < |a| then Some(a[i]) else None
  }

  /** `w` is the first space-delimited token of `s`: a space-free prefix ending at a space or at the end. */
  predicate FirstToken(s: string, w: string) {
    w <= s && ' ' !in w && (|w| == |s| || s[|w|] == ' ')
  }

  /** A string has only one first token. */
  lemma FirstTokenUnique(s: string, a: string, b: string)
    requires FirstToken(s, a) && FirstToken(s, b)
    ensures a == b
  {
  }

  /**
    For `s = head + " " + rest` with a space-free, non-empty `head`,
    `s.split(" ")[1]` exists exactly when `rest` holds a non-space character,
    and it is then the first token of `rest` (empty when `rest` starts with a space).
   */
  lemma SecondTokenOfSplit(head: string, rest: string)
    requires head != "" && ' ' !in head
    ensures var r := ElementAt(Split(head + " " + rest, ' '), 1);
            && (r.Some? <==> exists i :: 0 <= i < |rest| && rest[i] != ' ')
            && (r.Some? ==> FirstToken(rest, r.value))
  {
    var s := head + " " + rest;
    assert s[|head|] == ' ';
    assert ' ' in s;
    PiecesAfterWord(head, ' ', rest);
    var p := Pieces(rest, ' ');
    var ps := Pieces(s, ' ');
    assert ps == [head] + p;
    var d := DropTrailingEmpty(ps);
    assert Split(s, ' ') == d;
    PiecesAllEmpty(rest, ' ');
    if exists i :: 0 <= i < |rest| && rest[i] != ' ' {
      var k :| 0 <= k < |p| && p[k] != "";
      assert ps[k + 1] == p[k];
      assert |d| >= 2;
      assert d[1] == ps[1] == p[0];
    } else {
      assert forall k :: 0 <= k < |p| ==> p[k] == "";
      assert forall k :: 1 <= k < |ps| ==> ps[k] == p[k - 1];
      assert |d| < 2;
    }
  }
}

=== FILE: seqs.dfy ===
/** Facts about sequence concatenation, stated once for every element type. */
module Seqs {

  /** Where the elements of `a + b` come from. */
  lemma IndexAppend<T>(a: seq<T>, b: seq<T>)
    ensures forall i :: 0 <= i < |a| ==> (a + b)[i] == a[i]
    ensures forall i :: |a| <= i < |a| + |b| ==> (a + b)[i] == b[i - |a|]
  {
  }

  /** Concatenation is associative. */
  lemma Assoc<T>(a: seq<T>, b: seq<T>, c: seq<T>)
    ensures a + b + c == a + (b + c)
  {
  }
}
